=== FILE: README.md ===
# base64-2-img, modelled in Dafny

The library `base64-2-img` has two entry points:

- `imageToBase64(input)` turns an image URL or an image file path into a data URI, `data:<mime>;base64,<payload>`.
- `base64ToImage(text, options)` writes a base64 text into a `.png` file. It strips a png/jpg/jpeg data-URI header from the text first, if there is one.

This project models the decision logic under the I/O. Each piece is a pure Dafny function:

- the three string tests `isValidImage`, `isImage` and `isValidUrl`;
- the dispatch of `imageToBase64`;
- the data URIs the readers build;
- the header strip of `base64ToImage`;
- the merge of the caller's options over the defaults;
- `randomImageName`;
- the action `writeImageFileToDisk` takes for each result of `statSync`.

The outside world enters as parameters:

- `FetchResult`: what `https.get` delivered.
- `FileProbe`: what `statSync`, `file-type` and `readFileSync` reported.
- `Stat`: what `statSync` reported on the target directory.
- `PWD`: an optional string.
- `Math.random`: a stream of alphabet indices, `draws: nat -> Draw`.

A promise is described by its settlement (`Js.Settlement`): resolved, rejected, or never settled.

Modules, one file each:

- `Js` (js.dfy): `Option`, the failures a promise rejects with, and settlements.
- `Text` (text.dfy): substring search, JavaScript's `split` with a string separator, and the character classes `\s` and `\w`.
- `Classifier` (classifier.dfy): the three tests. `isValidImage` and `isValidUrl` each have a reference definition of a match and a left-to-right scan proved to decide it. `isImage` is a prefix test, characterised character by character.
  - For `isValidUrl`, a match exists iff some `http://` or `https://` (any case) is followed by a run of non-whitespace characters ending in `.` and a word character.
  - The optional credentials group is absorbed by `(\S+)`.
  - The optional port group can never take part in a match, because the look-behind of `((?<=\.)\w+)` would then need the port's last digit to be a `.`.
- `DataUri` (data_uri.dfy): building a data URI, and stripping the header.
- `Reader` (reader.dfy): the dispatch, `readUrlAndConvert`, `readImageAndConvert` and `imageToBase64`.
- `Writer` (writer.dfy): `randomImageName`, the option merge, `writeImageFileToDisk` and `base64ToImage`.
  - The 62-character alphabet of `randomImageName` is written as three concatenated literals: the upper-case letters, the lower-case letters and the digits. The value is the same.
- `Pipeline` (pipeline.dfy): a png/jpg/jpeg image read by `imageToBase64` and handed to `base64ToImage`, when no `base64ImageString` option is given, is written with exactly the base64 text that was read.

## Behaviour worth knowing

Each point below is what the code does, and what the model does with it.

- A file whose content the sniffer reports as a non-image type still resolves. The file reader never applies `isImage` (src/lib.js:103-112); see `Reader.FileRouteSkipsImageCheck`.
- A path that exists but is not a regular file is not rejected. `readImageAndConvert` falls off its end and resolves with `undefined`.
- The URL reader accepts any content type that starts with `image`, for example `imagefoo`. It does not require `image/`.
- A missing target directory is created with one non-recursive `mkdir`. The errors `mkdir` and `writeFile` report to their callbacks are both ignored, so the promise resolves with `success` even when nothing was written.
- A path holding a NUL character is refused by Node before the disk is touched, with a thrown ERR_INVALID_ARG_VALUE. A directory with NUL makes `statSync` throw inside the `try`, and the promise rejects. A file name with NUL makes `writeFile` throw: next to an existing directory that is inside the `try` and the promise rejects; after the `mkdir` of a missing directory it escapes the callback uncaught, the promise never settles, and unless an `uncaughtException` handler is installed Node exits the process. See `Writer.NulNameNeverWrites`.
- A `statSync` error other than ENOENT does not escape uncaught. It is re-thrown inside the promise executor, which rejects the promise with that error.
- A target path that exists but is not a directory makes the promise never settle, and nothing is written.
- The default directory is `process.env.PWD`, not the working directory. When `PWD` is unset and no `filePath` is given, `path.resolve(undefined)` throws and the promise rejects.
- A caller may pass `base64ImageString` among the options. It then replaces the (stripped) input.
- Two calls with `randomizeFileName` get distinct names only when their draws differ. `Writer.DifferentDrawsDifferentNames` shows that differing draws give differing names; equal draws give the same name.

## Model

| member | source | states |
|---|---|---|
| Classifier.IsValidImage | src/lib.js:11-13 | the test holds iff some index i ≥ 1 has a non-whitespace character before it and `.jpg`, `.png` or `.jpeg` (any letter case) at i |
| Classifier.ExtensionAnywhere | src/lib.js:11-13 | the extension may sit anywhere: text added before or after a valid name keeps it valid |
| Classifier.ExtensionIgnoresCase | src/lib.js:11-13 | lower-casing the input never changes the verdict (flag `i`) |
| Classifier.ImageExamples | src/lib.js:11-13 | `a.PNG` and `cat.jpeg.bak` are accepted |
| Classifier.LeadingDotRejected | src/lib.js:11-13 | `.png` and ` .jpg` are rejected: the look-behind needs a non-whitespace character |
| Classifier.ExtensionShape | src/lib.js:11-13 | a match starts with `.` followed by `j` or `p` in either case |
| Classifier.BitmapRejected | src/lib.js:11-13 | `cat.bmp` is rejected |
| Classifier.IsValidUrl | src/lib.js:38-40 | the test holds iff some case-insensitive `http://` or `https://` is followed by non-whitespace up to a `.` that has a word character after it |
| Classifier.UrlHasScheme | src/lib.js:38-40 | a URL contains `http://` or `https://`, ignoring case |
| Classifier.UrlShape | src/lib.js:38-40 | a match starts at an `h` and has a `.` after a non-whitespace host start |
| Classifier.ExampleDotComIsUrl | tests/test.spec.js:62-68 | `https://www.example.com` passes the URL test |
| Classifier.UpperCaseSchemeIsUrl | src/lib.js:38-40 | an upper-case scheme in mid-text still matches |
| Classifier.DotlessHostIsNotUrl | src/lib.js:38-40 | `http://localhost` has no dot and fails |
| Classifier.SpaceAfterSchemeIsNotUrl | src/lib.js:38-40 | whitespace right after the scheme fails |
| Classifier.FileNameIsNotUrl | src/lib.js:38-40 | a plain file name fails the URL test |
| Classifier.IsImage | src/lib.js:29-31 | the test holds iff the text has at least ten characters and they are exactly `data:image`, letter case included |
| DataUri.BuildDataUri | src/lib.js:110 | the URI starts with `data:`, then holds the MIME type, then `;base64,`, then the payload, and is exactly as long as those parts |
| Reader.HeaderText | src/lib.js:77 | the template literal renders a present header as its value and a missing one as `undefined` |
| DataUri.IsImageOfBuiltUri | src/lib.js:77-86 | the URL reader's data URI passes `isImage` iff the content-type text starts with `image` |
| DataUri.StripHeader | src/lib.js:166 | without a png/jpg/jpeg header the input is kept; with one, the result is the text after the last `;base64,` |
| Text.Split | src/lib.js:166 | `split` gives at least one piece, and the last piece is the text after the last separator the left-to-right scan consumes, or the whole text when there is none (for `;base64,`, which cannot overlap itself, the last occurrence) |
| Text.SplitOverlapping | src/lib.js:166 | the scan consumes non-overlapping occurrences: `"aaa".split("aa")` is `["", "a"]` |
| Text.LastOfSplitFrom | src/lib.js:166 | `split(sep).pop()` is the suffix after the last separator the scan meets |
| Text.FindFrom | src/lib.js:166 | the first occurrence of the separator at or after a position, or none |
| DataUri.StripBuiltUri | src/lib.js:166 | round trip: stripping `data:<m>;base64,p` for m in png/jpg/jpeg gives p, and p strips to itself |
| DataUri.StripIdempotent | src/lib.js:166 | stripping twice equals stripping once |
| DataUri.HeaderIffImageMime | src/lib.js:166 | a built data URI of a `;`-free type loses its header iff the type is `image/png`, `image/jpg` or `image/jpeg` |
| DataUri.NoSeparatorNoHeader | src/lib.js:166 | a text without `;base64,` never has a recognised header |
| DataUri.Base64TextLacksSeparator | src/lib.js:108 | base64 text never contains `;base64,` |
| Reader.Classify | src/lib.js:46-64 | the URL test wins, then the extension test, else rejection with the fixed message |
| Reader.ReadUrlAndConvert | src/lib.js:71-96 | resolves with `data:<content-type>;base64,<body>` iff the content type starts with `image`; otherwise rejects with the fixed message; a transport error is passed through |
| Reader.ReadImageAndConvert | src/lib.js:103-112 | resolves with `data:<mime>;base64,<payload>` for a sniffed regular file, with `undefined` for a non-file; stat, sniff and read errors reject with that error unchanged, an unrecognised type rejects with the destructuring TypeError |
| Reader.ImageToBase64 | src/lib.js:46-64 | an input neither test accepts rejects with the fixed message; a URL settles exactly as the URL reader does, resolving with its data URI or rejecting with its reason; a file path settles exactly as the file reader does; every resolved string is a data URI |
| Reader.RejectNeedsNoInput | src/lib.js:57 | the rejection does not depend on network or file system |
| Reader.UrlIgnoresFiles | src/lib.js:48-50 | a URL's outcome does not depend on the file system; it resolves iff the URL reader does, with the URL reader's data URI, and otherwise rejects with the same reason |
| Reader.PathIgnoresNetwork | src/lib.js:53-55 | a file path's outcome is the file reader's and does not depend on the network |
| Reader.UrlTakesPrecedence | src/lib.js:48-56 | `http://a.png` passes both tests and is routed to the URL reader, not the file reader |
| Reader.MissingFileRejects | tests/test.spec.js:45-52 | a missing file rejects with the stat error unchanged |
| Reader.ImageUrlResolves | tests/test.spec.js:26-33 | a URL serving `image/jpeg` resolves with a URI starting `data:image/jpeg;base64,` |
| Reader.NotImageType | src/lib.js:82-86 | a content type not starting with `i` is rejected with the fixed message |
| Reader.WebPageRejected | tests/test.spec.js:62-68 | `https://www.example.com` serving `text/html` rejects with the fixed message |
| Reader.MissingContentTypeRejected | src/lib.js:77 | a missing content-type header renders as `undefined` and is rejected |
| Reader.BitmapPathRejected | tests/test.spec.js:54-60 | `cat.bmp` is rejected before any input or output |
| Reader.FileRouteSkipsImageCheck | src/lib.js:103-112 | a file sniffed as `application/pdf` resolves with a non-image data URI |
| Writer.RandomImageName | src/lib.js:119-126 | the name has the requested length and its i-th character is the alphabet character of the i-th draw |
| Writer.AlphabetLayout | src/lib.js:121 | the alphabet is the upper-case letters, lower-case letters and digits, each exactly once |
| Writer.RandomNameIsAlnum | src/lib.js:121-124 | a random name consists of ASCII letters and digits |
| Writer.EveryAlnumNameCanBeDrawn | src/lib.js:121-124 | every string of ASCII letters and digits is the name of some draws |
| Writer.DifferentDrawsDifferentNames | src/lib.js:123-124 | draws differing within the length give different names |
| Writer.IndexOf | src/lib.js:121 | the alphabet index of a letter or digit maps back to it |
| Writer.MergeOptions | src/lib.js:167 | each supplied key wins; otherwise `PWD`, `"image"`, `false` and the stripped input |
| Writer.Settles | src/lib.js:129-156 | only the writing actions resolve, with `success`; a non-directory, or a throw escaping the `mkdir` callback, stays pending; a rejection carries its error |
| Writer.ChosenName | src/lib.js:132 | with `randomizeFileName` the name has five ASCII letters or digits; otherwise it is the configured `fileName` |
| Writer.WriteImageFileToDisk | src/lib.js:128-157 | no path → rejection; a directory path holding NUL → rejection before the stat; directory → write, or rejection when the name holds NUL; ENOENT → mkdir then write, or mkdir then an uncaught throw when the name holds NUL; not a directory → never settles; other stat error → rejection with it; a write goes to `<filePath>/<name>.png` with the configured data; when randomised, the name is exactly the five-character name of the draws |
| Writer.Base64ToImage | src/lib.js:164-170 | the written data is the supplied `base64ImageString` or else the stripped input, into the merged directory, under the five-character name of the draws when `randomizeFileName` is set and otherwise under the supplied or default `fileName`, with `.png` appended |
| Writer.HeaderedAndHeadlessWriteAlike | tests/test.spec.js:85-98 | a png/jpg/jpeg data URI and its headless payload give the same outcome |
| Writer.SuppliedPayloadWins | src/lib.js:167 | with `base64ImageString` supplied, the input text plays no part |
| Writer.DefaultTarget | src/lib.js:167 | without options the stripped input goes to `image.png` in a NUL-free `PWD` |
| Writer.NoDirectoryRejects | src/lib.js:135 | no `filePath` and no `PWD` rejects with the `path.resolve` TypeError |
| Writer.MissingDirectoryIsCreated | tests/test.spec.js:75-83 | a missing NUL-free directory is made and written into under a random name, an existing one is written into under the name of the second call's draws, both resolve `success`, and the two files differ when the draws do |
| Writer.RandomNameIgnoresFileName | src/lib.js:132 | with a random name the configured `fileName` plays no part |
| Writer.NotDirectoryHangs | src/lib.js:135-140 | a NUL-free non-directory path leaves the promise pending and writes nothing |
| Writer.NulNameNeverWrites | src/lib.js:132-153 | a `fileName` holding NUL rejects next to an existing directory, and after creating a missing one leaves the promise pending |
| Writer.RandomNameAlwaysWrites | src/lib.js:132-148 | a random name never holds NUL, so with a NUL-free directory that exists or is missing, the file is written |
| Writer.GifUriWrittenWhole | src/lib.js:166 | a gif data URI keeps its header and still goes to a `.png` file |
| Pipeline.FileRoundTrip | src/lib.js:164-170 | a png/jpg/jpeg file read by `imageToBase64` is written back with exactly the base64 text read |
| Pipeline.UrlRoundTrip | src/lib.js:71-96 | an image fetched with a png/jpg/jpeg content type is written back with exactly the body fetched |

## Left out

- HTTPS fetching and streaming of the body are not modelled. `FetchResult` stands for their result: the content-type header and the concatenated base64 chunks, or the request's error. `https.get` throws synchronously for an input it cannot take as an https URL. That includes every `http:` URL (ERR_INVALID_PROTOCOL) and a URL with text before its scheme or right after its host (ERR_INVALID_URL). Text after the path is not refused: the URL parser percent-encodes it and fetches it as part of the path. The throw happens inside the promise executor, so `readUrlAndConvert` rejects and nothing is fetched. The model represents this as a `TransportError` fetch result. Which inputs `https.get` refuses is not modelled, because it depends on Node's URL parser.
- `statSync`, `readFileSync`, `writeFile` and `mkdir` are left out as file-system I/O. Only their results appear, as `FileProbe` and `Stat`. The bytes written and the base64 decoding of `writeFile` are not modelled.
- `file-type` sniffing and `Buffer` base64 encoding (src/lib.js:20-22, 107-108) are foreign code. The sniffed MIME type and the payload are opaque inputs. `base64ToNode` receives a string, and its `toString('base64')` returns that string unchanged.
- `path.resolve` normalisation is not modelled. A `Target` keeps the directory and the file name as given. Resolving against the working directory, `..` segments, and a `fileName` containing `/` are left out.
- `Math.random` is replaced by the draws parameter. Uniformity of the draws is not modelled.
- Promise scheduling and timing are left out. So is the unreachable `catch` at src/lib.js:58-61: the readers' rejections are adopted by `resolve`, not thrown.
- A Dafny `string` is a sequence of Unicode scalar values, while a JavaScript string is a sequence of UTF-16 code units, so lone surrogates cannot be represented. Every literal and separator involved is ASCII and the regular expressions have no `u` flag, so no verdict depends on this.
- Concurrent calls, and one write clobbering another, are left out.
- Option values the caller sets explicitly to `undefined` are not modelled. Neither are non-string names or paths, non-boolean `randomizeFileName`, or non-string inputs. `Options` fields are either supplied with their documented type or left out.
- A URL fetch that never ends, and a file read that never completes, are not modelled. Only settled fetches and reads are.

=== FILE: classifier.dfy ===
/** The three string tests of the module: `isValidImage`, `isImage` and
    `isValidUrl`. Each regular expression is a literal evaluated afresh on
    every call, so its `lastIndex` starts at 0 and the tests are pure
    predicates of their argument. */
module Classifier {
  import opened Js
  import opened Text

  // ---------------------------------------------------------------------
  // isValidImage: /(?<=\S+)\.(jpg|png|jpeg)/gi
  // ---------------------------------------------------------------------

  /** An image extension at `i`: `.jpg`, `.png` or `.jpeg` in any letter case
      starts at `i`, and the character right before it is not whitespace
      (the look-behind `(?<=\S+)` needs at least one). */
  predicate ExtensionAt(s: string, i: nat) {
    0 < i <= |s| && !IsWhitespace(s[i - 1])
    && (OccursAtIgnoringCase(s, ".jpg", i)
        || OccursAtIgnoringCase(s, ".png", i)
        || OccursAtIgnoringCase(s, ".jpeg", i))
  }

  /** The regular-expression engine's search: try every start index from
      `from` on, left to right. */
  function FindExtensionFrom(s: string, from: nat): (found: bool)
    requires from <= |s|
    ensures found <==> exists i: nat :: from <= i && ExtensionAt(s, i)
    decreases |s| - from
  {
    if ExtensionAt(s, from) then true
    else if from == |s| then false
    else FindExtensionFrom(s, from + 1)
  }

  /** `isValidImage(image)`: the text holds an image extension somewhere,
      not only at its end. */
  function IsValidImage(s: string): (valid: bool)
    ensures valid <==> exists i: nat :: ExtensionAt(s, i)
  {
    FindExtensionFrom(s, 0)
  }

  // ---------------------------------------------------------------------
  // isImage: /^data:image/
  // ---------------------------------------------------------------------

  /** `isImage(img)`: the text starts with exactly `data:image`, letter case
      included. */
  function IsImage(s: string): (image: bool)
    ensures image <==> 10 <= |s| && forall k :: 0 <= k < 10 ==> s[k] == "data:image"[k]
  {
    StartsWith(s, "data:image")
  }

  // ---------------------------------------------------------------------
  // isValidUrl:
  //   /http(s)?:\/\/(\w+:?\w*@)?(\S+)(:\d+)?((?<=\.)\w+)+(\/([\w#!:.?+=&%@!\-/])*)?/gi
  //
  // The test is unanchored, so only the shortest acceptable match matters.
  // The trailing path group is optional. The credentials group consists of
  // non-whitespace characters, so `\S+` can consume it instead. The port
  // group can never be non-empty in a match: it ends in a digit, and the
  // first repetition of `((?<=\.)\w+)` needs a `.` right before it. What is
  // left: after `http://` or `https://` (any case) comes a run of
  // non-whitespace characters whose last one is a `.` followed by a word
  // character.
  // ---------------------------------------------------------------------

  /** The index right after a case-insensitive `http://` or `https://`
      starting at `k`, if one does. */
  function SchemeEnd(s: string, k: nat): (end: Option<nat>)
    ensures end.Some? ==> end.value <= |s|
  {
    if OccursAtIgnoringCase(s, "http://", k) then Some(k + 7)
    else if OccursAtIgnoringCase(s, "https://", k) then Some(k + 8)
    else None
  }

  /** From `p` to `d` no whitespace, `s[d]` is a `.`, and a word character
      follows it. */
  predicate HostDotAt(s: string, p: nat, d: nat) {
    p <= d && d + 1 < |s| && s[d] == '.' && IsWordChar(s[d + 1])
    && forall m :: p <= m < d ==> !IsWhitespace(s[m])
  }

  /** A match of the URL expression starts at `k`. */
  ghost predicate UrlAt(s: string, k: nat) {
    var end := SchemeEnd(s, k);
    end.Some? && exists d: nat :: HostDotAt(s, end.value, d)
  }

  /** Scan for the dot of a host name from `m` on, stopping at whitespace. */
  function FindHostDot(s: string, m: nat): (found: bool)
    requires m <= |s|
    ensures found <==> exists d: nat :: HostDotAt(s, m, d)
    decreases |s| - m
  {
    if m == |s| || IsWhitespace(s[m]) then
      assert forall d: nat :: !HostDotAt(s, m, d);
      false
    else if s[m] == '.' && m + 1 < |s| && IsWordChar(s[m + 1]) then
      assert HostDotAt(s, m, m);
      true
    else
      var found := FindHostDot(s, m + 1);
      assert found ==> exists d: nat :: HostDotAt(s, m, d) by {
        if found {
          var d: nat :| HostDotAt(s, m + 1, d);
          assert HostDotAt(s, m, d);
        }
      }
      assert (exists d: nat :: HostDotAt(s, m, d)) ==> found by {
        if exists d: nat :: HostDotAt(s, m, d) {
          var d: nat :| HostDotAt(s, m, d);
          assert HostDotAt(s, m + 1, d);
        }
      }
      found
  }

  /** The regular-expression engine's search for a URL match from `from` on. */
  function FindUrlFrom(s: string, from: nat): (found: bool)
    requires from <= |s|
    ensures found <==> exists k: nat :: from <= k && UrlAt(s, k)
    decreases |s| - from
  {
    var here := match SchemeEnd(s, from)
                case None => false
                case Some(p) => FindHostDot(s, p);
    assert here <==> UrlAt(s, from);
    if here then true
    else if from == |s| then false
    else FindUrlFrom(s, from + 1)
  }

  /** `isValidUrl(url)`. */
  function IsValidUrl(s: string): (valid: bool)
    ensures valid <==> exists k: nat :: UrlAt(s, k)
  {
    FindUrlFrom(s, 0)
  }

  // ---------------------------------------------------------------------
  // Properties
  // ---------------------------------------------------------------------

  /** The extension may sit anywhere: text added before or after a valid
      image name keeps it valid. */
  lemma ExtensionAnywhere(s: string, t: string)
    requires IsValidImage(s)
    ensures IsValidImage(s + t)
    ensures IsValidImage(t + s)
  {
    var i: nat :| ExtensionAt(s, i);
    assert ExtensionAt(s + t, i) by {
      assert forall k :: 0 <= k < i + 5 && k < |s| ==> (s + t)[k] == s[k];
    }
    assert ExtensionAt(t + s, |t| + i) by {
      assert forall k :: 0 <= k < |s| ==> (t + s)[|t| + k] == s[k];
    }
  }

  /** Lower-casing preserves JavaScript whitespace and is idempotent. */
  lemma LowerAsciiFacts(c: char)
    ensures IsWhitespace(LowerAscii(c)) <==> IsWhitespace(c)
    ensures LowerAscii(LowerAscii(c)) == LowerAscii(c)
  {
  }

  /** `isValidImage` ignores letter case: `photo.PNG` and `photo.png` are
      judged alike. */
  lemma ExtensionIgnoresCase(s: string)
    ensures IsValidImage(LowerAll(s)) == IsValidImage(s)
  {
    var l := LowerAll(s);
    forall k | 0 <= k < |s|
      ensures IsWhitespace(l[k]) <==> IsWhitespace(s[k])
      ensures LowerAscii(l[k]) == LowerAscii(s[k])
    {
      LowerAsciiFacts(s[k]);
    }
    forall i: nat
      ensures ExtensionAt(l, i) <==> ExtensionAt(s, i)
    {
    }
  }

  /** Concrete verdicts: letter case does not matter and the extension
      need not end the text. */
  lemma ImageExamples()
    ensures IsValidImage("a.PNG")
    ensures IsValidImage("cat.jpeg.bak")
  {
    assert ExtensionAt("a.PNG", 1);
    assert ExtensionAt("cat.jpeg.bak", 3);
  }

  /** The dot needs a non-whitespace character right before it. */
  lemma LeadingDotRejected()
    ensures !IsValidImage(".png")
    ensures !IsValidImage(" .jpg")
  {
  }

  /** What an extension match looks like at its first two characters. */
  lemma ExtensionShape(s: string, i: nat)
    requires ExtensionAt(s, i)
    ensures i + 4 <= |s| && s[i] == '.'
    ensures LowerAscii(s[i + 1]) == 'j' || LowerAscii(s[i + 1]) == 'p'
  {
    if OccursAtIgnoringCase(s, ".jpg", i) {
      assert LowerAscii(s[i + 0]) == ".jpg"[0];
      assert LowerAscii(s[i + 1]) == ".jpg"[1];
    } else if OccursAtIgnoringCase(s, ".png", i) {
      assert LowerAscii(s[i + 0]) == ".png"[0];
      assert LowerAscii(s[i + 1]) == ".png"[1];
    } else {
      assert LowerAscii(s[i + 0]) == ".jpeg"[0];
      assert LowerAscii(s[i + 1]) == ".jpeg"[1];
    }
  }

  /** An unsupported extension is rejected. */
  lemma BitmapRejected()
    ensures !IsValidImage("cat.bmp")
  {
    var s := "cat.bmp";
    forall i: nat | ExtensionAt(s, i)
      ensures false
    {
      ExtensionShape(s, i);
    }
  }

  /** A URL contains `http://` or `https://`, ignoring case. */
  lemma UrlHasScheme(s: string)
    requires IsValidUrl(s)
    ensures ContainsIgnoringCase(s, "http://") || ContainsIgnoringCase(s, "https://")
  {
    var k: nat :| UrlAt(s, k);
  }

  /** What a URL match looks like: an `h` (either case) where it starts,
      a non-whitespace character where the host starts, and a `.` after that. */
  lemma UrlShape(s: string, k: nat) returns (p: nat, d: nat)
    requires UrlAt(s, k)
    ensures SchemeEnd(s, k) == Some(p) && HostDotAt(s, p, d)
    ensures LowerAscii(s[k]) == 'h'
    ensures k + 7 <= p <= d < |s| && s[d] == '.' && !IsWhitespace(s[p])
  {
    p := SchemeEnd(s, k).value;
    d :| HostDotAt(s, p, d);
    if OccursAtIgnoringCase(s, "http://", k) {
      assert LowerAscii(s[k + 0]) == "http://"[0];
    } else {
      assert LowerAscii(s[k + 0]) == "https://"[0];
    }
  }

  /** `https://www.example.com` passes the URL test. */
  lemma ExampleDotComIsUrl()
    ensures IsValidUrl("https://www.example.com")
  {
    var s := "https://www.example.com";
    assert LowerAscii(s[4]) != "http://"[4];
    assert !OccursAtIgnoringCase(s, "http://", 0);
    assert s[..8] == "https://";
    assert OccursAtIgnoringCase(s, "https://", 0);
    assert HostDotAt(s, 8, 11);
    assert UrlAt(s, 0);
  }

  /** The scheme may sit anywhere and in any letter case. */
  lemma UpperCaseSchemeIsUrl()
    ensures IsValidUrl("see HTTP://a.b")
  {
    var s := "see HTTP://a.b";
    assert s[4..11] == "HTTP://";
    assert OccursAtIgnoringCase(s, "http://", 4);
    assert HostDotAt(s, 11, 12);
    assert UrlAt(s, 4);
  }

  /** A host name without a dot fails the URL test. */
  lemma DotlessHostIsNotUrl()
    ensures !IsValidUrl("http://localhost")
  {
    forall k: nat | UrlAt("http://localhost", k) ensures false {
      var p, d := UrlShape("http://localhost", k);
    }
  }

  /** Whitespace right after the scheme fails the URL test. */
  lemma SpaceAfterSchemeIsNotUrl()
    ensures !IsValidUrl("http:// a.b")
  {
    var s := "http:// a.b";
    assert LowerAscii(s[4]) != "https://"[4];
    assert !OccursAtIgnoringCase(s, "https://", 0);
    forall k: nat | UrlAt(s, k) ensures false {
      var p, d := UrlShape(s, k);
    }
  }

  /** A file name fails the URL test. */
  lemma FileNameIsNotUrl()
    ensures !IsValidUrl("cat.png")
  {
    forall k: nat | UrlAt("cat.png", k) ensures false {
      var p, d := UrlShape("cat.png", k);
    }
  }
}

=== FILE: data_uri.dfy ===
/** Data URIs: how the readers build them and how `base64ToImage` strips
    their header before writing. */
module DataUri {
  import opened Text
  import opened Classifier

  const Separator := ";base64,"

  /** The MIME types whose header `base64ToImage` recognises. */
  const ImageMimes := {"image/png", "image/jpg", "image/jpeg"}

  /** The data URI both readers build: `data:<mime>;base64,<payload>`. */
  function BuildDataUri(mime: string, payload: string): (uri: string)
    ensures |uri| == 5 + |mime| + |Separator| + |payload|
    ensures StartsWith(uri, "data:")
    ensures uri[5..5 + |mime|] == mime
    ensures OccursAt(uri, Separator, 5 + |mime|)
    ensures uri[5 + |mime| + |Separator|..] == payload
  {
    var uri := "data:" + mime + Separator + payload;
    assert uri[..5] == "data:";
    assert uri[5 + |mime|..5 + |mime| + |Separator|] == Separator;
    uri
  }

  /** The test `/^data:image\/(png|jpg|jpeg);base64,/`, letter case included. */
  predicate HasImageHeader(s: string) {
    || StartsWith(s, "data:image/png;base64,")
    || StartsWith(s, "data:image/jpg;base64,")
    || StartsWith(s, "data:image/jpeg;base64,")
  }

  /** The characters `Buffer#toString('base64')` produces. */
  predicate IsBase64Text(s: string) {
    forall i :: 0 <= i < |s| ==> IsAsciiAlnum(s[i]) || s[i] == '+' || s[i] == '/' || s[i] == '='
  }

  /** `payload` is the text of `s` after a `;base64,` that no later one
      follows. */
  ghost predicate AfterLastSeparator(s: string, payload: string) {
    && |payload| + |Separator| <= |s|
    && payload == s[|s| - |payload|..]
    && OccursAt(s, Separator, |s| - |payload| - |Separator|)
    && forall j: nat :: |s| - |payload| - |Separator| < j ==> !OccursAt(s, Separator, j)
  }

  /** The payload `base64ToImage` writes: with a recognised header, what
      `split(';base64,').pop()` leaves, which is the text after the last
      `;base64,` (a separator that cannot overlap itself, so the scan
      consumes every occurrence); otherwise the input unchanged. */
  function StripHeader(s: string): (payload: string)
    ensures !HasImageHeader(s) ==> payload == s
    ensures HasImageHeader(s) ==> AfterLastSeparator(s, payload)
  {
    if HasImageHeader(s) then
      StripHeaderIsAfterLastSeparator(s);
      Last(Split(s, Separator))
    else
      s
  }

  /** A recognised header holds the separator. */
  lemma HeaderHoldsSeparator(s: string) returns (i: nat)
    requires HasImageHeader(s)
    ensures OccursAt(s, Separator, i)
  {
    if StartsWith(s, "data:image/png;base64,") {
      i := 14;
      assert s[14..22] == "data:image/png;base64,"[14..22];
    } else if StartsWith(s, "data:image/jpg;base64,") {
      i := 14;
      assert s[14..22] == "data:image/jpg;base64,"[14..22];
    } else {
      i := 15;
      assert s[15..23] == "data:image/jpeg;base64,"[15..23];
    }
  }

  /** Two occurrences of the separator never overlap: `;` is only its first
      character. */
  lemma SeparatorsDoNotOverlap(s: string, q: nat, j: nat)
    requires OccursAt(s, Separator, q) && q < j < q + |Separator|
    ensures !OccursAt(s, Separator, j)
  {
    assert s[j] == Separator[j - q];
  }

  lemma StripHeaderIsAfterLastSeparator(s: string)
    requires HasImageHeader(s)
    ensures AfterLastSeparator(s, Last(Split(s, Separator)))
  {
    var i := HeaderHoldsSeparator(s);
    var start := LastPieceOfSplit(s, Separator, i);
    var q := start - |Separator|;
    forall j: nat | q < j
      ensures !OccursAt(s, Separator, j)
    {
      if j < start {
        SeparatorsDoNotOverlap(s, q, j);
      }
    }
  }

  // ---------------------------------------------------------------------
  // Properties
  // ---------------------------------------------------------------------

  /** The URL reader's check: the data URI it builds passes `isImage`
      exactly when the content-type text starts with `image` (so `imagefoo`
      passes and a missing header, rendered `undefined`, fails). */
  lemma IsImageOfBuiltUri(contentType: string, body: string)
    ensures IsImage(BuildDataUri(contentType, body)) <==> StartsWith(contentType, "image")
  {
    var uri := BuildDataUri(contentType, body);
    if |contentType| >= 5 {
      assert uri[0..10] == "data:" + contentType[..5];
      assert uri[5..10] == contentType[..5];
      assert IsImage(uri) <==> uri[5..10] == "image";
    } else {
      assert uri[5 + |contentType|] == ';';
    }
  }

  /** A base64 text never holds the separator: `;` is not in its alphabet. */
  lemma Base64TextLacksSeparator(p: string)
    requires IsBase64Text(p)
    ensures !Contains(p, Separator)
  {
    forall i: nat | i < |p|
      ensures !OccursAt(p, Separator, i)
    {
      assert p[i] != Separator[0];
    }
  }

  /** A text without the separator has no recognised header. */
  lemma NoSeparatorNoHeader(s: string)
    requires !Contains(s, Separator)
    ensures !HasImageHeader(s)
  {
    if HasImageHeader(s) {
      var i := HeaderHoldsSeparator(s);
    }
  }

  /** In `a + ";base64," + b` with no separator inside `b`, the separator
      after `a` is the last one. */
  lemma LastSeparatorAfter(a: string, b: string)
    requires !Contains(b, Separator)
    ensures var s := a + Separator + b;
            && OccursAt(s, Separator, |a|)
            && forall j: nat :: |a| < j ==> !OccursAt(s, Separator, j)
  {
    var s := a + Separator + b;
    assert s[|a|..|a| + |Separator|] == Separator;
    forall j: nat | |a| < j
      ensures !OccursAt(s, Separator, j)
    {
      if j < |a| + |Separator| {
        SeparatorsDoNotOverlap(s, |a|, j);
      } else if OccursAt(s, Separator, j) {
        OccursFromSuffix(s, Separator, |a| + |Separator|, j);
      }
    }
  }

  /** Round trip: stripping the header of a data URI the reader built for a
      png/jpg/jpeg image gives back its payload, and a headless payload
      passes through unchanged, so both write the same bytes. */
  lemma {:induction false} StripBuiltUri(mime: string, payload: string)
    requires mime in ImageMimes
    requires !Contains(payload, Separator)
    ensures StripHeader(BuildDataUri(mime, payload)) == payload
    ensures StripHeader(payload) == payload
  {
    var s := BuildDataUri(mime, payload);
    var a := "data:" + mime;
    assert s == a + Separator + payload;
    StripBuiltUriHeader(mime, payload);
    LastSeparatorAfter(a, payload);
    var r := StripHeader(s);
    var q := |s| - |r| - |Separator|;
    assert q == |a|;
    assert r == s[|a| + |Separator|..];
    NoSeparatorNoHeader(payload);
  }

  /** Stripping twice strips no more than stripping once. */
  lemma StripIdempotent(s: string)
    ensures StripHeader(StripHeader(s)) == StripHeader(s)
  {
    if HasImageHeader(s) {
      var r := StripHeader(s);
      var q := |s| - |r| - |Separator|;
      forall j: nat | OccursAt(r, Separator, j)
        ensures false
      {
        OccursInSuffix(s, Separator, q + |Separator|, j);
      }
      NoSeparatorNoHeader(r);
    }
  }

  /** Only png/jpg/jpeg data URIs lose their header: for a MIME type without
      `;`, the built URI has a recognised header exactly when the type is one
      of the three (an `image/gif` URI is written as it is). */
  lemma HeaderIffImageMime(mime: string, payload: string)
    requires forall i :: 0 <= i < |mime| ==> mime[i] != ';'
    ensures HasImageHeader(BuildDataUri(mime, payload)) <==> mime in ImageMimes
  {
    if mime in ImageMimes {
      StripBuiltUriHeader(mime, payload);
    } else {
      HeaderMeansImageMime(mime, payload);
    }
  }

  lemma HeaderMeansImageMime(mime: string, payload: string)
    requires forall i :: 0 <= i < |mime| ==> mime[i] != ';'
    ensures HasImageHeader(BuildDataUri(mime, payload)) ==> mime in ImageMimes
  {
    var s := BuildDataUri(mime, payload);
    if HasImageHeader(s) {
      var m := HeaderShape(s);
      HeaderNamesMime(mime, payload, m);
    }
  }

  /** The three headers of the test are the data-URI headers of the three types. */
  lemma HeaderLiterals()
    ensures BuildDataUri("image/png", "") == "data:image/png;base64,"
    ensures BuildDataUri("image/jpg", "") == "data:image/jpg;base64,"
    ensures BuildDataUri("image/jpeg", "") == "data:image/jpeg;base64,"
  {
    PngHeader();
    JpgHeader();
    JpegHeader();
  }

  lemma PngHeader()
    ensures BuildDataUri("image/png", "") == "data:image/png;base64,"
  {
    assert BuildDataUri("image/png", "") == "data:" + "image/png" + Separator + "";
  }

  lemma JpgHeader()
    ensures BuildDataUri("image/jpg", "") == "data:image/jpg;base64,"
  {
    assert BuildDataUri("image/jpg", "") == "data:" + "image/jpg" + Separator + "";
  }

  lemma JpegHeader()
    ensures BuildDataUri("image/jpeg", "") == "data:image/jpeg;base64,"
  {
    assert BuildDataUri("image/jpeg", "") == "data:" + "image/jpeg" + Separator + "";
  }

  /** A recognised header is `data:<m>;base64,` for one of the three types. */
  lemma HeaderShape(s: string) returns (m: string)
    requires HasImageHeader(s)
    ensures m in ImageMimes && StartsWith(s, BuildDataUri(m, ""))
  {
    HeaderLiterals();
    if StartsWith(s, "data:image/png;base64,") {
      m := "image/png";
    } else if StartsWith(s, "data:image/jpg;base64,") {
      m := "image/jpg";
    } else {
      m := "image/jpeg";
    }
  }

  lemma HeaderNamesMime(mime: string, payload: string, m: string)
    requires forall i :: 0 <= i < |mime| ==> mime[i] != ';'
    requires m in ImageMimes
    requires StartsWith(BuildDataUri(mime, payload), BuildDataUri(m, ""))
    ensures mime == m
  {
    assert forall i :: 0 <= i < |m| ==> m[i] != ';';
    MimeFromHeader(mime, payload, m);
  }

  lemma StripBuiltUriHeader(mime: string, payload: string)
    requires mime in ImageMimes
    ensures HasImageHeader(BuildDataUri(mime, payload))
  {
    var s := BuildDataUri(mime, payload);
    var h := BuildDataUri(mime, "");
    assert s[..|h|] == h;
    HeaderLiterals();
  }

  /** A header `data:<m>;base64,` read off a URI built from a `;`-free type
      fixes that type to be `m`. */
  lemma MimeFromHeader(mime: string, payload: string, m: string)
    requires forall i :: 0 <= i < |mime| ==> mime[i] != ';'
    requires forall i :: 0 <= i < |m| ==> m[i] != ';'
    requires StartsWith(BuildDataUri(mime, payload), BuildDataUri(m, ""))
    ensures mime == m
  {
    var s := BuildDataUri(mime, payload);
    var h := BuildDataUri(m, "");
    assert s[5 + |mime|] == ';';
    assert h[5 + |m|] == ';';
    if |mime| == |m| {
      assert s[5..5 + |mime|] == mime;
      assert h[5..5 + |m|] == m;
    }
  }
}

=== FILE: js.dfy ===
/** The JavaScript runtime notions the module's functions answer with:
    a value that may be `undefined`, the errors a promise can reject with,
    and the way a promise settles. */
module Js {

  /** A value that may be `undefined` (or, for a caller-supplied option, omitted). */
  datatype Option<+T> = None | Some(value: T)
  {
    /** The value, or `default` when it is absent. */
    function GetOr(default: T): (v: T)
      ensures Some? ==> v == value
      ensures None? ==> v == default
    {
      match this
      case Some(v) => v
      case None => default
    }
  }

  /** An error a promise of the module can be rejected with. */
  datatype Failure =
    /** `new Error(message)` raised by the module itself */
    | Error(message: string)
    /** a Node.js file-system or network error, passed on unchanged */
    | SystemError(code: string, message: string)
    /** the TypeError of destructuring `{ mime }` out of `undefined` */
    | MimeUndefined
    /** the TypeError (code ERR_INVALID_ARG_TYPE) `path.resolve` throws when given `undefined` */
    | PathNotString
    /** the TypeError (code ERR_INVALID_ARG_VALUE) the file-system calls throw,
        before touching the disk, for a path that holds a NUL character */
    | PathHasNul

  /** How a promise ends: fulfilled with a value, rejected with a reason, or never. */
  datatype Settlement<+T> = Resolved(value: T) | Rejected(reason: Failure) | Pending
}

=== FILE: pipeline.dfy ===
/** The two exported functions together: for a png/jpg/jpeg image, when no
    `base64ImageString` option is given, what `imageToBase64` resolves with,
    handed to `base64ToImage`, writes the base64 text that was read. */
module Pipeline {
  import opened Js
  import opened Text
  import opened Classifier
  import opened DataUri
  import opened Reader
  import opened Writer

  /** A png/jpg/jpeg file read by `imageToBase64` and written back by
      `base64ToImage` is written with exactly the base64 text that was read,
      the same as writing that text headless. */
  lemma FileRoundTrip(path: string, fetch: FetchResult, mime: string, payload: string,
                      supplied: Options, pwd: Option<string>, stat: Stat, draws: nat -> Draw)
    requires !IsValidUrl(path) && IsValidImage(path)
    requires mime in ImageMimes && IsBase64Text(payload)
    requires supplied.base64ImageString.None?
    ensures var r := ImageToBase64(path, fetch, RegularFile(Detected(mime), Read(payload)));
            && r == Resolved(Some(BuildDataUri(mime, payload)))
            && var o := Base64ToImage(r.value.value, supplied, pwd, stat, draws);
               && o == Base64ToImage(payload, supplied, pwd, stat, draws)
               && (o.Writes() ==> o.data == payload)
  {
    Base64TextLacksSeparator(payload);
    HeaderedAndHeadlessWriteAlike(mime, payload, supplied, pwd, stat, draws);
  }

  /** The same for an image fetched from a URL whose content type is one
      of the three. */
  lemma UrlRoundTrip(url: string, probe: FileProbe, mime: string, body: string,
                     supplied: Options, pwd: Option<string>, stat: Stat, draws: nat -> Draw)
    requires IsValidUrl(url)
    requires mime in ImageMimes && IsBase64Text(body)
    requires supplied.base64ImageString.None?
    ensures var r := ImageToBase64(url, Response(Some(mime), body), probe);
            && r == Resolved(Some(BuildDataUri(mime, body)))
            && var o := Base64ToImage(r.value.value, supplied, pwd, stat, draws);
               && o == Base64ToImage(body, supplied, pwd, stat, draws)
               && (o.Writes() ==> o.data == body)
  {
    IsImageOfBuiltUri(mime, body);
    assert StartsWith(mime, "image") by {
      assert mime[..5] == "image";
    }
    Base64TextLacksSeparator(body);
    HeaderedAndHeadlessWriteAlike(mime, body, supplied, pwd, stat, draws);
  }
}

=== FILE: reader.dfy ===
/** `imageToBase64`: classify the input, then read it from the network or
    from a file and answer with a data URI. The network and the file system
    are parameters: a `FetchResult` says what `https.get` delivered, a
    `FileProbe` what `statSync`, `file-type` and `readFileSync` reported. */
module Reader {
  import opened Js
  import opened Text
  import opened Classifier
  import opened DataUri

  /** The one message the module rejects with on its own account. */
  const InvalidImageMessage := "Provide a valid image or image url"

  /** Which way `imageToBase64` goes with its argument. */
  datatype Route = Url(url: string) | ImagePath(path: string) | Reject(message: string)

  /** The dispatch: the URL test wins, then the image-extension test, and
      anything else is turned down before any input or output. */
  function Classify(input: string): (route: Route)
    ensures route.Url? <==> IsValidUrl(input)
    ensures route.ImagePath? <==> !IsValidUrl(input) && IsValidImage(input)
    ensures route.Reject? <==> !IsValidUrl(input) && !IsValidImage(input)
    ensures route.Url? ==> route.url == input
    ensures route.ImagePath? ==> route.path == input
    ensures route.Reject? ==> route.message == InvalidImageMessage
  {
    if IsValidUrl(input) then Url(input)
    else if IsValidImage(input) then ImagePath(input)
    else Reject(InvalidImageMessage)
  }

  // ---------------------------------------------------------------------
  // readUrlAndConvert
  // ---------------------------------------------------------------------

  /** What `https.get` delivered: a response whose `content-type` header may
      be missing, with its body read in base64 and concatenated, or the
      request's `error` event. */
  datatype FetchResult =
    | Response(contentType: Option<string>, body: string)
    | TransportError(code: string, message: string)

  /** A header value as a template literal renders it: `undefined` when absent. */
  function HeaderText(header: Option<string>): (text: string)
    ensures header.Some? ==> text == header.value
    ensures header.None? ==> text == "undefined"
  {
    match header
    case Some(v) => v
    case None => "undefined"
  }

  /** The settlement of `readUrlAndConvert(url)` once the response has ended
      or the request has failed. */
  function ReadUrlAndConvert(fetch: FetchResult): (r: Settlement<string>)
    ensures !r.Pending?
    ensures r.Resolved? ==> fetch.Response? && IsImage(r.value)
                            && r.value == BuildDataUri(HeaderText(fetch.contentType), fetch.body)
    ensures fetch.Response? ==> (r.Resolved? <==> StartsWith(HeaderText(fetch.contentType), "image"))
    ensures fetch.Response? && r.Rejected? ==> r.reason == Error(InvalidImageMessage)
    ensures fetch.TransportError? ==> r == Rejected(SystemError(fetch.code, fetch.message))
  {
    match fetch
    case Response(contentType, body) =>
      var uri := BuildDataUri(HeaderText(contentType), body);
      IsImageOfBuiltUri(HeaderText(contentType), body);
      if IsImage(uri) then Resolved(uri) else Rejected(Error(InvalidImageMessage))
    case TransportError(code, message) =>
      Rejected(SystemError(code, message))
  }

  // ---------------------------------------------------------------------
  // readImageAndConvert
  // ---------------------------------------------------------------------

  /** What `fileType.fromFile` reported: a MIME type, nothing it recognises
      (`undefined`), or a read error. */
  datatype Sniff = Detected(mime: string) | Unrecognised | SniffFailed(code: string, message: string)

  /** What `readFileSync` produced, as base64 text, or its error. */
  datatype Contents = Read(payload: string) | ReadFailed(code: string, message: string)

  /** What the file system reported about the path. */
  datatype FileProbe =
    /** `statSync` threw, for instance ENOENT with the path in its message */
    | StatFailed(code: string, message: string)
    /** the path exists but is not a regular file */
    | NotAFile
    | RegularFile(sniff: Sniff, contents: Contents)

  /** The settlement of `readImageAndConvert(path)`. It is an `async`
      function, so whatever it throws becomes a rejection; a path that is not
      a regular file falls off its end and resolves with `undefined` (`None`). */
  function ReadImageAndConvert(probe: FileProbe): (r: Settlement<Option<string>>)
    ensures !r.Pending?
    ensures r == Resolved(None) <==> probe.NotAFile?
    ensures r.Resolved? && r.value.Some? <==> probe.RegularFile? && probe.sniff.Detected? && probe.contents.Read?
    ensures r.Resolved? && r.value.Some? ==>
              r.value.value == BuildDataUri(probe.sniff.mime, probe.contents.payload)
    ensures probe.StatFailed? ==> r == Rejected(SystemError(probe.code, probe.message))
    ensures probe.RegularFile? && probe.sniff.Unrecognised? ==> r == Rejected(MimeUndefined)
    ensures probe.RegularFile? && probe.sniff.SniffFailed? ==>
              r == Rejected(SystemError(probe.sniff.code, probe.sniff.message))
    ensures probe.RegularFile? && probe.sniff.Detected? && probe.contents.ReadFailed? ==>
              r == Rejected(SystemError(probe.contents.code, probe.contents.message))
  {
    match probe
    case StatFailed(code, message) => Rejected(SystemError(code, message))
    case NotAFile => Resolved(None)
    case RegularFile(sniff, contents) =>
      match sniff
      case SniffFailed(code, message) => Rejected(SystemError(code, message))
      case Unrecognised => Rejected(MimeUndefined)
      case Detected(mime) =>
        match contents
        case ReadFailed(code, message) => Rejected(SystemError(code, message))
        case Read(payload) => Resolved(Some(BuildDataUri(mime, payload)))
  }

  // ---------------------------------------------------------------------
  // imageToBase64
  // ---------------------------------------------------------------------

  /** The settlement of `imageToBase64(input)`: the promise of the chosen
      reader is adopted as it is, and an input neither test accepts is
      rejected with the fixed message. */
  function ImageToBase64(input: string, fetch: FetchResult, probe: FileProbe): (r: Settlement<Option<string>>)
    ensures !r.Pending?
    ensures !IsValidUrl(input) && !IsValidImage(input) ==> r == Rejected(Error(InvalidImageMessage))
    ensures IsValidUrl(input) && r.Resolved? ==> r.value.Some? && IsImage(r.value.value)
    ensures IsValidUrl(input) && ReadUrlAndConvert(fetch).Resolved? ==>
              r == Resolved(Some(ReadUrlAndConvert(fetch).value))
    ensures IsValidUrl(input) && r.Rejected? ==> ReadUrlAndConvert(fetch) == Rejected(r.reason)
    ensures IsValidUrl(input) && ReadUrlAndConvert(fetch).Rejected? ==>
              r == Rejected(ReadUrlAndConvert(fetch).reason)
    ensures !IsValidUrl(input) && IsValidImage(input) ==> r == ReadImageAndConvert(probe)
    ensures r.Rejected? && r.reason.Error? ==> r.reason.message == InvalidImageMessage
    ensures r.Resolved? && r.value.Some? ==>
              StartsWith(r.value.value, "data:") && Contains(r.value.value, Separator)
  {
    match Classify(input)
    case Url(url) =>
      (match ReadUrlAndConvert(fetch)
       case Resolved(uri) => Resolved(Some(uri))
       case Rejected(reason) => Rejected(reason)
       case Pending => Pending)
    case ImagePath(path) => ReadImageAndConvert(probe)
    case Reject(message) => Rejected(Error(message))
  }


  // ---------------------------------------------------------------------
  // Properties
  // ---------------------------------------------------------------------

  /** An input neither test accepts is rejected whatever the network and
      the file system would have said: nothing is fetched or read. */
  lemma RejectNeedsNoInput(input: string, f1: FetchResult, f2: FetchResult, p1: FileProbe, p2: FileProbe)
    requires !IsValidUrl(input) && !IsValidImage(input)
    ensures ImageToBase64(input, f1, p1) == ImageToBase64(input, f2, p2) == Rejected(Error(InvalidImageMessage))
  {
  }

  /** A URL goes only to the URL reader: the file system plays no part,
      and the settlement is the URL reader's. */
  lemma UrlIgnoresFiles(input: string, fetch: FetchResult, p1: FileProbe, p2: FileProbe)
    requires IsValidUrl(input)
    ensures ImageToBase64(input, fetch, p1) == ImageToBase64(input, fetch, p2)
    ensures ImageToBase64(input, fetch, p1).Resolved? <==> ReadUrlAndConvert(fetch).Resolved?
    ensures ReadUrlAndConvert(fetch).Resolved? ==>
              ImageToBase64(input, fetch, p1) == Resolved(Some(ReadUrlAndConvert(fetch).value))
    ensures ReadUrlAndConvert(fetch).Rejected? ==>
              ImageToBase64(input, fetch, p1) == Rejected(ReadUrlAndConvert(fetch).reason)
  {
  }

  /** A file name that is not a URL is only read from disk: the network
      plays no part, and the settlement is the file reader's. */
  lemma PathIgnoresNetwork(input: string, f1: FetchResult, f2: FetchResult, probe: FileProbe)
    requires !IsValidUrl(input) && IsValidImage(input)
    ensures ImageToBase64(input, f1, probe) == ImageToBase64(input, f2, probe) == ReadImageAndConvert(probe)
  {
  }

  /** The URL test takes precedence: `http://a.png` also has an image
      extension, yet it is routed to the URL reader rather than the file
      reader. */
  lemma UrlTakesPrecedence()
    ensures IsValidImage("http://a.png") && Classify("http://a.png") == Url("http://a.png")
  {
    var s := "http://a.png";
    assert ExtensionAt(s, 8) by {
      assert s[8..12] == ".png";
    }
    assert s[..7] == "http://";
    assert OccursAtIgnoringCase(s, "http://", 0);
    assert HostDotAt(s, 7, 8);
    assert UrlAt(s, 0);
  }

  /** A missing file rejects with the error `statSync` raised, for instance
      ENOENT naming the path. */
  lemma MissingFileRejects(input: string, fetch: FetchResult, code: string, message: string)
    requires !IsValidUrl(input) && IsValidImage(input)
    ensures ImageToBase64(input, fetch, StatFailed(code, message)) == Rejected(SystemError(code, message))
  {
  }

  /** A URL serving an image resolves with a data URI that carries the
      served content type and the body. */
  lemma ImageUrlResolves(input: string, body: string, probe: FileProbe)
    requires IsValidUrl(input)
    ensures var r := ImageToBase64(input, Response(Some("image/jpeg"), body), probe);
            && r == Resolved(Some(BuildDataUri("image/jpeg", body)))
            && StartsWith(r.value.value, "data:image/jpeg;base64,")
  {
    var uri := BuildDataUri("image/jpeg", body);
    IsImageOfBuiltUri("image/jpeg", body);
    assert uri[..23] == "data:image/jpeg;base64,";
  }

  /** A content type that does not start with `i` is not an image one. */
  lemma NotImageType(contentType: string, body: string)
    requires |contentType| > 0 && contentType[0] != 'i'
    ensures ReadUrlAndConvert(Response(Some(contentType), body)) == Rejected(Error(InvalidImageMessage))
  {
    IsImageOfBuiltUri(contentType, body);
    assert !StartsWith(contentType, "image") by {
      assert contentType[0] != "image"[0];
    }
  }

  /** `https://www.example.com` serves an HTML page, so it is rejected with
      the fixed message. */
  lemma WebPageRejected(body: string, probe: FileProbe)
    ensures ImageToBase64("https://www.example.com", Response(Some("text/html"), body), probe)
            == Rejected(Error(InvalidImageMessage))
  {
    ExampleDotComIsUrl();
    NotImageType("text/html", body);
  }

  /** A response without a content-type header renders as `undefined` and
      is rejected. */
  lemma MissingContentTypeRejected(body: string)
    ensures ReadUrlAndConvert(Response(None, body)) == Rejected(Error(InvalidImageMessage))
  {
    NotImageType("undefined", body);
  }

  /** A bitmap is turned down before any input or output. */
  lemma BitmapPathRejected(fetch: FetchResult, probe: FileProbe)
    ensures ImageToBase64("cat.bmp", fetch, probe) == Rejected(Error(InvalidImageMessage))
  {
    BitmapRejected();
    forall k: nat | UrlAt("cat.bmp", k) ensures false {
      var p, d := UrlShape("cat.bmp", k);
    }
  }

  /** The file route does not apply `isImage`: a `.png` name whose contents
      the sniffer reports as PDF still resolves, with a data URI that is not
      an image one. */
  lemma FileRouteSkipsImageCheck(payload: string)
    ensures var r := ReadImageAndConvert(RegularFile(Detected("application/pdf"), Read(payload)));
            r.Resolved? && r.value.Some? && !IsImage(r.value.value)
  {
    IsImageOfBuiltUri("application/pdf", payload);
    assert "application/pdf"[0] != "image"[0];
  }
}

=== FILE: text.dfy ===
/** String search, JavaScript's `String.prototype.split`, and the character
    classes of JavaScript regular expressions, over `seq<char>`. */
module Text {
  import opened Js

  /** `t` occurs in `s` starting at index `i`. */
  predicate OccursAt(s: string, t: string, i: nat) {
    i + |t| <= |s| && s[i..i + |t|] == t
  }

  predicate StartsWith(s: string, prefix: string) {
    OccursAt(s, prefix, 0)
  }

  predicate EndsWith(s: string, suffix: string) {
    |suffix| <= |s| && s[|s| - |suffix|..] == suffix
  }

  predicate Contains(s: string, t: string) {
    exists i: nat :: i <= |s| && OccursAt(s, t, i)
  }

  /** The first index at or after `from` where `t` occurs in `s`, if any. */
  function FindFrom(s: string, t: string, from: nat): (r: Option<nat>)
    requires from <= |s|
    ensures r.Some? ==> from <= r.value && OccursAt(s, t, r.value)
    ensures r.Some? ==> forall j: nat :: from <= j < r.value ==> !OccursAt(s, t, j)
    ensures r.None? ==> forall j: nat :: from <= j ==> !OccursAt(s, t, j)
    decreases |s| - from
  {
    if OccursAt(s, t, from) then Some(from)
    else if from == |s| then None
    else FindFrom(s, t, from + 1)
  }

  function Last<T>(xs: seq<T>): T
    requires |xs| >= 1
  {
    xs[|xs| - 1]
  }

  lemma LastOfLonger<T>(x: T, xs: seq<T>)
    requires |xs| >= 1
    ensures Last([x] + xs) == Last(xs)
  {
  }

  /** The pieces of `s[from..]` that `s.split(sep)` produces for a non-empty
      string separator, scanning left to right for the next occurrence. */
  function SplitFrom(s: string, sep: string, from: nat): (parts: seq<string>)
    requires |sep| > 0 && from <= |s|
    ensures |parts| >= 1
    decreases |s| - from
  {
    match FindFrom(s, sep, from)
    case None => [s[from..]]
    case Some(k) => [s[from..k]] + SplitFrom(s, sep, k + |sep|)
  }

  /** `s.split(sep)`: at least one piece, the last being the text after the
      last separator the left-to-right scan consumes, or all of `s` when
      there is none. For a separator that cannot overlap itself that is the
      last occurrence; for one that can, it need not be (`SplitOverlapping`). */
  function Split(s: string, sep: string): (parts: seq<string>)
    requires |sep| > 0
    ensures |parts| >= 1
    ensures Last(parts) == s[LastPieceStart(s, sep, 0)..]
  {
    LastOfSplitFrom(s, sep, 0);
    SplitFrom(s, sep, 0)
  }

  /** Where the last piece of the scan from `from` begins: just past the last
      separator the scan meets, or `from` itself when it meets none. */
  function LastPieceStart(s: string, sep: string, from: nat): (start: nat)
    requires |sep| > 0 && from <= |s|
    ensures from <= start <= |s|
    ensures from < start ==> |sep| <= start && OccursAt(s, sep, start - |sep|)
    ensures forall j: nat :: start <= j ==> !OccursAt(s, sep, j)
    decreases |s| - from
  {
    match FindFrom(s, sep, from)
    case None => from
    case Some(k) => LastPieceStart(s, sep, k + |sep|)
  }

  /** Popping the last piece of the split gives the text from `LastPieceStart`. */
  lemma {:induction false} LastOfSplitFrom(s: string, sep: string, from: nat)
    requires |sep| > 0 && from <= |s|
    ensures Last(SplitFrom(s, sep, from)) == s[LastPieceStart(s, sep, from)..]
    decreases |s| - from
  {
    match FindFrom(s, sep, from)
    case None =>
    case Some(k) =>
      var rest := SplitFrom(s, sep, k + |sep|);
      assert SplitFrom(s, sep, from) == [s[from..k]] + rest;
      assert LastPieceStart(s, sep, from) == LastPieceStart(s, sep, k + |sep|);
      LastOfLonger(s[from..k], rest);
      LastOfSplitFrom(s, sep, k + |sep|);
  }

  /** When `sep` occurs in `s`, the last piece of `s.split(sep)` begins right
      after an occurrence, and no occurrence starts at or after that point. */
  lemma LastPieceOfSplit(s: string, sep: string, i: nat) returns (start: nat)
    requires |sep| > 0 && OccursAt(s, sep, i)
    ensures |sep| <= start <= |s| && Last(Split(s, sep)) == s[start..]
    ensures OccursAt(s, sep, start - |sep|)
    ensures forall j: nat :: start <= j ==> !OccursAt(s, sep, j)
  {
    start := LastPieceStart(s, sep, 0);
    LastOfSplitFrom(s, sep, 0);
    assert Split(s, sep) == SplitFrom(s, sep, 0);
    assert !(start <= i);
  }

  /** The scan consumes non-overlapping occurrences: `"aaa".split("aa")`
      ends in `"a"`, although the last occurrence of `"aa"` starts at 1. */
  lemma SplitOverlapping()
    ensures OccursAt("aaa", "aa", 1)
    ensures Split("aaa", "aa") == ["", "a"]
  {
    assert FindFrom("aaa", "aa", 0) == Some(0);
    assert FindFrom("aaa", "aa", 2) == None;
  }

  /** No occurrence at or after `start` means the suffix from `start` does not contain `t`. */
  lemma SuffixLacks(s: string, t: string, start: nat)
    requires start <= |s|
    requires forall j: nat :: start <= j ==> !OccursAt(s, t, j)
    ensures !Contains(s[start..], t)
  {
    forall j: nat | OccursAt(s[start..], t, j)
      ensures false
    {
      OccursInSuffix(s, t, start, j);
    }
  }

  /** An occurrence inside a suffix is an occurrence in the whole string. */
  lemma OccursInSuffix(s: string, t: string, k: nat, j: nat)
    requires k <= |s|
    requires OccursAt(s[k..], t, j)
    ensures OccursAt(s, t, k + j)
  {
    assert s[k..][j..j + |t|] == s[k + j..k + j + |t|];
  }

  /** An occurrence at or after `k` is an occurrence in the suffix from `k`. */
  lemma OccursFromSuffix(s: string, t: string, k: nat, j: nat)
    requires k <= j && OccursAt(s, t, j)
    ensures OccursAt(s[k..], t, j - k)
  {
    assert s[k..][j - k..j - k + |t|] == s[j..j + |t|];
  }

  /** JavaScript's `\s`: the WhiteSpace and LineTerminator code points. */
  predicate IsWhitespace(c: char) {
    || c == '\t' || c == '\n' || c == '\U{000B}' || c == '\U{000C}' || c == '\r'
    || c == ' ' || c == '\U{00A0}' || c == '\U{1680}'
    || ('\U{2000}' <= c <= '\U{200A}')
    || c == '\U{2028}' || c == '\U{2029}' || c == '\U{202F}' || c == '\U{205F}'
    || c == '\U{3000}' || c == '\U{FEFF}'
  }

  /** JavaScript's `\w` without the `u` flag: `[A-Za-z0-9_]`. */
  predicate IsWordChar(c: char) {
    IsAsciiAlnum(c) || c == '_'
  }

  predicate IsAsciiAlnum(c: char) {
    'A' <= c <= 'Z' || 'a' <= c <= 'z' || '0' <= c <= '9'
  }

  /** The canonical form a case-insensitive (non-Unicode) JavaScript regular
      expression compares: only ASCII letters have another case that folds. */
  function LowerAscii(c: char): char {
    if 'A' <= c <= 'Z' then (c as int + 32) as char else c
  }

  /** `lowered`, a literal written in lower case, occurs in `s` at `i`
      ignoring the case of ASCII letters. */
  predicate OccursAtIgnoringCase(s: string, lowered: string, i: nat) {
    i + |lowered| <= |s| && forall k :: 0 <= k < |lowered| ==> LowerAscii(s[i + k]) == lowered[k]
  }

  /** Every ASCII letter of `s` in lower case. */
  function LowerAll(s: string): string {
    seq(|s|, i requires 0 <= i < |s| => LowerAscii(s[i]))
  }

  predicate ContainsIgnoringCase(s: string, lowered: string) {
    exists i: nat :: i <= |s| && OccursAtIgnoringCase(s, lowered, i)
  }
}

=== FILE: writer.dfy ===
/** `base64ToImage` and what it hands to `writeImageFileToDisk`: the header
    strip, the merge of the caller's options over the defaults, the file
    name, and the action the writer takes for what `statSync` reports.
    `Math.random` is a parameter: `draws(i)` is the alphabet index that the
    `i`-th call's `Math.floor(Math.random() * 62)` yields. */
module Writer {
  import opened Js
  import opened Text
  import opened DataUri

  // ---------------------------------------------------------------------
  // randomImageName
  // ---------------------------------------------------------------------

  /** The 62 characters `randomImageName` draws from, written in three
      parts at the boundaries of the character classes. */
  const Alphabet := "ABCDEFGHIJKLMNOPQRSTUVWXYZ" + "abcdefghijklmnopqrstuvwxyz" + "0123456789"

  /** What `Math.floor(Math.random() * charactersLength)` can yield. */
  type Draw = i: int | 0 <= i < 62

  /** The length `writeImageFileToDisk` asks `randomImageName` for. */
  const NameLength := 5

  /** The `i`-th character of the alphabet, by its layout: the upper-case
      letters, the lower-case letters, then the digits. */
  function CharOf(i: Draw): char {
    if i < 26 then ('A' as int + i) as char
    else if i < 52 then ('a' as int + (i - 26)) as char
    else ('0' as int + (i - 52)) as char
  }

  /** The index of an ASCII letter or digit in the alphabet. */
  function IndexOf(c: char): (i: Draw)
    requires IsAsciiAlnum(c)
    ensures CharOf(i) == c
  {
    if 'A' <= c <= 'Z' then c as int - 'A' as int
    else if 'a' <= c <= 'z' then c as int - 'a' as int + 26
    else c as int - '0' as int + 52
  }

  /** The alphabet is laid out as `CharOf` says. */
  lemma AlphabetAt(i: Draw)
    ensures Alphabet[i] == CharOf(i)
  {
    if i < 26 {
      UpperAt(i);
    } else if i < 52 {
      LowerAt(i - 26);
    } else {
      DigitAt(i - 52);
    }
  }

  lemma UpperAt(i: nat)
    requires i < 26
    ensures "ABCDEFGHIJKLMNOPQRSTUVWXYZ"[i] == ('A' as int + i) as char
  {
  }

  lemma LowerAt(i: nat)
    requires i < 26
    ensures "abcdefghijklmnopqrstuvwxyz"[i] == ('a' as int + i) as char
  {
  }

  lemma DigitAt(i: nat)
    requires i < 10
    ensures "0123456789"[i] == ('0' as int + i) as char
  {
  }

  /** The alphabet holds exactly the ASCII letters and digits, each once. */
  lemma AlphabetLayout(i: Draw)
    ensures Alphabet[i] == CharOf(i) && IsAsciiAlnum(Alphabet[i])
    ensures forall j: Draw :: Alphabet[j] == Alphabet[i] ==> j == i
  {
    AlphabetAt(i);
    forall j: Draw | Alphabet[j] == Alphabet[i]
      ensures j == i
    {
      AlphabetAt(j);
    }
  }

  /** `randomImageName(length)`: one alphabet character per draw, in order. */
  function RandomImageName(length: nat, draws: nat -> Draw): (name: string)
    ensures |name| == length
    ensures forall i :: 0 <= i < length ==> name[i] == Alphabet[draws(i)]
    decreases length
  {
    if length == 0 then []
    else RandomImageName(length - 1, draws) + [Alphabet[draws(length - 1)]]
  }

  /** A random name is made of ASCII letters and digits. */
  lemma RandomNameIsAlnum(length: nat, draws: nat -> Draw)
    ensures forall i :: 0 <= i < length ==> IsAsciiAlnum(RandomImageName(length, draws)[i])
  {
    forall i | 0 <= i < length
      ensures IsAsciiAlnum(RandomImageName(length, draws)[i])
    {
      AlphabetLayout(draws(i));
    }
  }

  /** Every string of ASCII letters and digits is the name some draws give. */
  lemma EveryAlnumNameCanBeDrawn(name: string) returns (draws: nat -> Draw)
    requires forall i :: 0 <= i < |name| ==> IsAsciiAlnum(name[i])
    ensures RandomImageName(|name|, draws) == name
  {
    draws := (i: nat) => if i < |name| then IndexOf(name[i]) else 0;
    var drawn := RandomImageName(|name|, draws);
    forall i | 0 <= i < |name|
      ensures drawn[i] == name[i]
    {
      AlphabetLayout(draws(i));
    }
  }

  /** Draws that differ within the length give different names. */
  lemma DifferentDrawsDifferentNames(length: nat, d1: nat -> Draw, d2: nat -> Draw, i: nat)
    requires i < length && d1(i) != d2(i)
    ensures RandomImageName(length, d1) != RandomImageName(length, d2)
  {
    AlphabetLayout(d1(i));
    assert RandomImageName(length, d1)[i] != RandomImageName(length, d2)[i];
  }

  // ---------------------------------------------------------------------
  // Options
  // ---------------------------------------------------------------------

  /** The options object a caller passes; `None` is a key left out. */
  datatype Options = Options(
    filePath: Option<string>,
    fileName: Option<string>,
    randomizeFileName: Option<bool>,
    base64ImageString: Option<string>)

  const NoOptions := Options(None, None, None, None)

  /** The options `writeImageFileToDisk` destructures; a `filePath` of
      `None` is `undefined` (an unset `PWD`). */
  datatype Config = Config(
    filePath: Option<string>,
    fileName: string,
    randomizeFileName: bool,
    base64ImageString: string)

  const DefaultFileName := "image"


  /** `Object.assign({}, defaults, options)`: a key the caller supplies wins,
      any other key keeps its default: `PWD`, `"image"`, `false`, and the
      stripped input. */
  function MergeOptions(stripped: string, supplied: Options, pwd: Option<string>): (cfg: Config)
    ensures supplied.filePath.Some? ==> cfg.filePath == supplied.filePath
    ensures supplied.filePath.None? ==> cfg.filePath == pwd
    ensures supplied.fileName.Some? ==> cfg.fileName == supplied.fileName.value
    ensures supplied.fileName.None? ==> cfg.fileName == DefaultFileName
    ensures cfg.randomizeFileName <==> supplied.randomizeFileName == Some(true)
    ensures supplied.base64ImageString.Some? ==> cfg.base64ImageString == supplied.base64ImageString.value
    ensures supplied.base64ImageString.None? ==> cfg.base64ImageString == stripped
  {
    Config(
      if supplied.filePath.Some? then supplied.filePath else pwd,
      supplied.fileName.GetOr(DefaultFileName),
      supplied.randomizeFileName.GetOr(false),
      supplied.base64ImageString.GetOr(stripped))
  }

  // ---------------------------------------------------------------------
  // writeImageFileToDisk
  // ---------------------------------------------------------------------

  /** What `statSync(path.resolve(filePath))` reports. */
  datatype Stat = Directory | NotDirectory | StatError(code: string, message: string)

  /** The error code that makes the writer create the directory. */
  const Enoent := "ENOENT"

  const Extension := ".png"

  const SuccessMessage := "success"

  /** A file to write: the directory as given and the file name in it. */
  datatype Target = Target(dir: string, file: string)

  /** The character Node's path validation refuses. */
  const Nul: char := '\0'

  /** What `writeImageFileToDisk` does. The callbacks of `mkdir` and
      `writeFile` ignore their errors, so both writing actions resolve. */
  datatype WriterOutcome =
    | Write(target: Target, data: string)
    /** a single, non-recursive `mkdir` of `dir`, then the write */
    | MkdirThenWrite(dir: string, target: Target, data: string)
    /** a single `mkdir` of `dir`, after which `writeFile` throws on a file
        name holding NUL; the throw escapes the `mkdir` callback uncaught, so
        the promise is never settled and, unless an `uncaughtException`
        handler is installed, Node exits the process */
    | MkdirThenThrow(dir: string)
    /** a path that is not a directory: nothing is written and the promise
        is never settled */
    | NeverSettles
    | Reject(reason: Failure)
  {
    predicate Writes() {
      Write? || MkdirThenWrite?
    }
  }

  /** The promise `writeImageFileToDisk` returns, once the callbacks ran. */
  function Settles(o: WriterOutcome): (r: Settlement<string>)
    ensures r.Resolved? <==> o.Writes()
    ensures r.Resolved? ==> r.value == SuccessMessage
    ensures r.Pending? <==> o.NeverSettles? || o.MkdirThenThrow?
    ensures o.Reject? ==> r == Rejected(o.reason)
  {
    match o
    case Write(_, _) => Resolved(SuccessMessage)
    case MkdirThenWrite(_, _, _) => Resolved(SuccessMessage)
    case MkdirThenThrow(_) => Pending
    case NeverSettles => Pending
    case Reject(reason) => Rejected(reason)
  }

  /** The file name without extension: five random characters, or the
      configured name. */
  function ChosenName(cfg: Config, draws: nat -> Draw): (name: string)
    ensures !cfg.randomizeFileName ==> name == cfg.fileName
    ensures cfg.randomizeFileName ==>
              |name| == NameLength && forall i :: 0 <= i < NameLength ==> IsAsciiAlnum(name[i])
  {
    RandomNameIsAlnum(NameLength, draws);
    if cfg.randomizeFileName then RandomImageName(NameLength, draws) else cfg.fileName
  }

  /** `writeImageFileToDisk(options)`. `path.resolve(undefined)` throws a
      TypeError, and a stat error other than ENOENT is re-thrown; both are
      thrown inside the promise executor and so reject it. `statSync` refuses
      a directory path holding NUL before looking at the disk, and
      `writeFile` a file name holding NUL: inside the `try` that rejects
      too, inside the `mkdir` callback it escapes. */
  function WriteImageFileToDisk(cfg: Config, stat: Stat, draws: nat -> Draw): (o: WriterOutcome)
    ensures cfg.filePath.None? ==> o == Reject(PathNotString)
    ensures cfg.filePath.Some? && Nul in cfg.filePath.value ==> o == Reject(PathHasNul)
    ensures o.Write? <==> cfg.filePath.Some? && stat.Directory? && Nul !in cfg.filePath.value
                          && Nul !in ChosenName(cfg, draws)
    ensures o.MkdirThenWrite? <==> cfg.filePath.Some? && stat.StatError? && stat.code == Enoent
                                   && Nul !in cfg.filePath.value && Nul !in ChosenName(cfg, draws)
    ensures o.MkdirThenThrow? <==> cfg.filePath.Some? && stat.StatError? && stat.code == Enoent
                                   && Nul !in cfg.filePath.value && Nul in ChosenName(cfg, draws)
    ensures o.NeverSettles? <==> cfg.filePath.Some? && stat.NotDirectory? && Nul !in cfg.filePath.value
    ensures cfg.filePath.Some? && stat.Directory? && Nul in ChosenName(cfg, draws) ==> o == Reject(PathHasNul)
    ensures cfg.filePath.Some? && Nul !in cfg.filePath.value && stat.StatError? && stat.code != Enoent ==>
              o == Reject(SystemError(stat.code, stat.message))
    ensures o.Writes() ==> o.target.dir == cfg.filePath.value && o.data == cfg.base64ImageString
    ensures o.MkdirThenWrite? ==> o.dir == o.target.dir
    ensures o.MkdirThenThrow? ==> o.dir == cfg.filePath.value
    ensures o.Writes() ==> EndsWith(o.target.file, Extension) && Nul !in o.target.dir && Nul !in o.target.file
    ensures o.Writes() && !cfg.randomizeFileName ==> o.target.file == cfg.fileName + Extension
    ensures o.Writes() && cfg.randomizeFileName ==>
              o.target.file == RandomImageName(NameLength, draws) + Extension
    ensures o.Writes() && cfg.randomizeFileName ==>
              |o.target.file| == NameLength + |Extension|
              && forall i :: 0 <= i < NameLength ==> IsAsciiAlnum(o.target.file[i])
  {
    var name := ChosenName(cfg, draws);
    var file := name + Extension;
    RandomNameIsAlnum(NameLength, draws);
    assert Nul in file <==> Nul in name;
    match cfg.filePath
    case None => Reject(PathNotString)
    case Some(dir) =>
      if Nul in dir then Reject(PathHasNul)
      else
        match stat
        case Directory =>
          if Nul in name then Reject(PathHasNul) else Write(Target(dir, file), cfg.base64ImageString)
        case NotDirectory => NeverSettles
        case StatError(code, message) =>
          if code != Enoent then Reject(SystemError(code, message))
          else if Nul in name then MkdirThenThrow(dir)
          else MkdirThenWrite(dir, Target(dir, file), cfg.base64ImageString)
  }

  // ---------------------------------------------------------------------
  // base64ToImage
  // ---------------------------------------------------------------------

  /** `base64ToImage(input, options)` with the environment's `PWD`, what
      `statSync` reports on the directory, and the random draws. */
  function Base64ToImage(input: string, supplied: Options, pwd: Option<string>, stat: Stat, draws: nat -> Draw)
    : (o: WriterOutcome)
    ensures o.Writes() && supplied.base64ImageString.None? ==> o.data == StripHeader(input)
    ensures o.Writes() && supplied.base64ImageString.Some? ==> o.data == supplied.base64ImageString.value
    ensures o.Writes() ==> o.target.dir == supplied.filePath.GetOr(pwd.GetOr(""))
    ensures o.Writes() && supplied.randomizeFileName.GetOr(false) ==>
              o.target.file == RandomImageName(NameLength, draws) + Extension
    ensures o.Writes() && !supplied.randomizeFileName.GetOr(false) ==>
              o.target.file == supplied.fileName.GetOr(DefaultFileName) + Extension
  {
    WriteImageFileToDisk(MergeOptions(StripHeader(input), supplied, pwd), stat, draws)
  }

  // ---------------------------------------------------------------------
  // Properties
  // ---------------------------------------------------------------------

  /** A data URI the reader built for a png/jpg/jpeg file and its headless
      payload are written alike: same file, same data. */
  lemma HeaderedAndHeadlessWriteAlike(mime: string, payload: string, supplied: Options,
                                      pwd: Option<string>, stat: Stat, draws: nat -> Draw)
    requires mime in ImageMimes && !Contains(payload, Separator)
    ensures Base64ToImage(BuildDataUri(mime, payload), supplied, pwd, stat, draws)
            == Base64ToImage(payload, supplied, pwd, stat, draws)
  {
    StripBuiltUri(mime, payload);
  }

  /** A caller-supplied `base64ImageString` overrides the input entirely. */
  lemma SuppliedPayloadWins(input1: string, input2: string, supplied: Options,
                            pwd: Option<string>, stat: Stat, draws: nat -> Draw)
    requires supplied.base64ImageString.Some?
    ensures Base64ToImage(input1, supplied, pwd, stat, draws) == Base64ToImage(input2, supplied, pwd, stat, draws)
  {
  }

  /** Without options the stripped input goes to `image.png` in `PWD`. */
  lemma DefaultTarget(input: string, pwd: string, draws: nat -> Draw)
    requires Nul !in pwd
    ensures Base64ToImage(input, NoOptions, Some(pwd), Directory, draws)
            == Write(Target(pwd, "image.png"), StripHeader(input))
  {
  }

  /** With neither a `filePath` option nor `PWD`, `path.resolve` throws and
      the promise rejects without writing. */
  lemma NoDirectoryRejects(input: string, supplied: Options, stat: Stat, draws: nat -> Draw)
    requires supplied.filePath.None?
    ensures Base64ToImage(input, supplied, None, stat, draws) == Reject(PathNotString)
  {
  }

  /** A missing directory is created and the file written into it under a
      random name, and a second call finds the directory and writes there
      under a name of its own draws; both resolve with `success`, and the two
      files differ as soon as the draws of the two names do. */
  lemma MissingDirectoryIsCreated(input: string, filePath: string, pwd: Option<string>,
                                  message: string, d1: nat -> Draw, d2: nat -> Draw)
    requires Nul !in filePath
    ensures var opts := Options(Some(filePath), Some("img"), Some(true), None);
            var first := Base64ToImage(input, opts, pwd, StatError(Enoent, message), d1);
            var second := Base64ToImage(input, opts, pwd, Directory, d2);
            && first.MkdirThenWrite? && first.dir == filePath && first.target.dir == filePath
            && first.target.file == RandomImageName(NameLength, d1) + Extension
            && second.Write? && second.target.dir == filePath
            && second.target.file == RandomImageName(NameLength, d2) + Extension
            && first.data == second.data == StripHeader(input)
            && Settles(first) == Settles(second) == Resolved(SuccessMessage)
            && ((exists i :: 0 <= i < NameLength && d1(i) != d2(i)) ==> first.target != second.target)
  {
    if exists i :: 0 <= i < NameLength && d1(i) != d2(i) {
      var i :| 0 <= i < NameLength && d1(i) != d2(i);
      DifferentDrawsDifferentNames(NameLength, d1, d2, i);
      var n1, n2 := RandomImageName(NameLength, d1), RandomImageName(NameLength, d2);
      assert (n1 + Extension)[..NameLength] == n1;
      assert (n2 + Extension)[..NameLength] == n2;
    }
  }

  /** With a random name the configured `fileName` plays no part. */
  lemma RandomNameIgnoresFileName(cfg: Config, stat: Stat, draws: nat -> Draw, other: string)
    requires cfg.randomizeFileName
    ensures WriteImageFileToDisk(cfg, stat, draws) == WriteImageFileToDisk(cfg.(fileName := other), stat, draws)
  {
  }

  /** A path that names something other than a directory leaves the promise
      pending forever and writes nothing. */
  lemma NotDirectoryHangs(input: string, supplied: Options, pwd: Option<string>, draws: nat -> Draw)
    requires supplied.filePath.Some? || pwd.Some?
    requires Nul !in supplied.filePath.GetOr(pwd.GetOr(""))
    ensures Base64ToImage(input, supplied, pwd, NotDirectory, draws) == NeverSettles
    ensures Settles(Base64ToImage(input, supplied, pwd, NotDirectory, draws)) == Pending
  {
  }

  /** A configured file name holding NUL is never written: with the
      directory in place the promise rejects, and with the directory missing
      it is created and the promise then never settles. */
  lemma NulNameNeverWrites(input: string, dir: string, message: string, draws: nat -> Draw)
    requires Nul !in dir
    ensures var opts := Options(Some(dir), Some("a\0b"), None, None);
            && Base64ToImage(input, opts, None, Directory, draws) == Reject(PathHasNul)
            && Base64ToImage(input, opts, None, StatError(Enoent, message), draws) == MkdirThenThrow(dir)
            && Settles(Base64ToImage(input, opts, None, StatError(Enoent, message), draws)) == Pending
  {
    assert "a\0b"[1] == Nul;
  }

  /** A random name never holds NUL, so with a NUL-free directory the
      file-name check never stops the write. */
  lemma RandomNameAlwaysWrites(cfg: Config, stat: Stat, draws: nat -> Draw)
    requires cfg.randomizeFileName && cfg.filePath.Some? && Nul !in cfg.filePath.value
    requires stat.Directory? || (stat.StatError? && stat.code == Enoent)
    ensures WriteImageFileToDisk(cfg, stat, draws).Writes()
  {
  }

  /** Only png/jpg/jpeg headers are stripped: a gif data URI is written as it
      is, header included, and still into a `.png` file. */
  lemma GifUriWrittenWhole(payload: string, supplied: Options, pwd: Option<string>, stat: Stat, draws: nat -> Draw)
    requires supplied.base64ImageString.None?
    ensures var o := Base64ToImage(BuildDataUri("image/gif", payload), supplied, pwd, stat, draws);
            o.Writes() ==> o.data == BuildDataUri("image/gif", payload) && EndsWith(o.target.file, Extension)
  {
    HeaderIffImageMime("image/gif", payload);
  }
}
